=== FILE: README.md ===
# Crypto portfolio tracker — ledger and form model

A Dafny model of the core of a small crypto portfolio tracker. It has two parts.

The backend is a FastAPI service over one SQLite table of transactions. It offers:
- create, list, update and delete of transactions;
- a balance query that replays every row and credits or debits the two currencies of its `BASE-QUOTE` pair;
- a CSV import that inserts a whole file of transactions in one request.

The browser client keeps a transaction form. The model covers:
- `handleInputChange`, which derives price from total or total from price while the amount is positive;
- an edit mode keyed on `currentTransactionId`, set by `handleEdit` and cleared by `resetForm`;
- the choice in `handleSubmit` between a PUT of the edited row and a POST of a new one;
- the total shown per listed row, `amount * price`.

Modules, one per concern:

- `Wrappers`: `Option` and `Result`.
- `Pairs`: Python's `str.split` on a one-character separator and the two-name unpacking of a pair.
- `Ledger`: the table as a map from primary key to row, SQLite's key rule, and the four CRUD operations.
- `Balances`: the balance replay, with a per-currency reference definition (`Delta`, `Net`, `Touched`) and order independence.
- `CsvImport`: file-name check, record parsing, all-or-nothing insertion.
- `Form`: the client's draft, edit mode, submit request, and displayed total.

Behaviour of the code worth knowing:
- A stored pair that does not split into exactly two names makes the whole balance query fail. It is not skipped (`Balances.GetBalances`).
- One bad CSV record rejects the whole file and nothing is inserted.
- The `type` column is never validated, on create, update or import. Rows of an unknown type are ignored by the balance query, but their pair must still unpack.
- A `transfer` adds `amount` to the base currency and ignores price and fees.
- Fees are debited from, or deducted from proceeds in, the quote currency.
- A new key is the largest existing key plus one, so the key of a deleted last row is reused (`Ledger.KeyReusedAfterDelete`).
- `currentTransactionId` is tested for truthiness, so an id of `0` submits as a POST.

## Model

| member | source | states |
|---|---|---|
| Pairs.Split | backend/app/main.py:108 | `str.split` on one separator yields one more piece than there are separators, and no piece holds the separator |
| Pairs.JoinSplit | backend/app/main.py:108 | joining the pieces of a split with the separator gives the original text back |
| Pairs.SplitJoin | backend/app/main.py:108 | splitting a join of separator-free pieces gives the pieces back |
| Pairs.PairOf | backend/app/main.py:108 | the unpacking `base, quote = pair.split("-")` succeeds exactly when the pair holds one separator |
| Pairs.PairOfExact | backend/app/main.py:108 | a pair unpacks to `(base, quote)` if and only if it is `base-quote` with no separator on either side |
| Pairs.PairOfBtcUsd | backend/app/main.py:108 | `"BTC-USD"` unpacks to `("BTC", "USD")` |
| Pairs.PairOfEmptyQuote | backend/app/main.py:108 | `"BTC-"` is accepted with an empty quote currency, and `"-"` unpacks to two empty names |
| Pairs.PairOfMalformed | backend/app/main.py:108 | a pair with no separator or with two does not unpack |
| Ledger.NextId | backend/app/main.py:22 | an auto-assigned key is not in the table, exceeds every key in it, and is positive when all keys are |
| Ledger.AddTransaction | backend/app/main.py:61-72 | an insert adds exactly one row under a fresh key and returns that key; existing rows are unchanged |
| Ledger.UpdateTransaction | backend/app/main.py:75-90 | an update fails with not-found exactly when the key is absent; otherwise it replaces that row only and keeps the key set |
| Ledger.DeleteTransaction | backend/app/main.py:93-99 | a delete fails with not-found exactly when the key is absent; otherwise it removes that key only |
| Ledger.GetTransactions | backend/app/main.py:55-58 | the listing holds each stored row exactly once, with its columns, in ascending key order |
| Ledger.Listed | backend/app/main.py:55-58 | every stored row appears in the listing |
| Ledger.KeyReusedAfterDelete | backend/app/main.py:61-99 | inserting, deleting that row and inserting again reuses the first key |
| Balances.Apply | backend/app/main.py:115-133 | one replay step adds the row's per-currency `Delta` to every currency and creates entries exactly for the currencies the row touches |
| Balances.Replay | backend/app/main.py:107-135 | the loop fails exactly when some row's pair does not unpack (the failure records such a pair, a payload of the model's own); otherwise every currency is its start value plus the rows' net change |
| Balances.BalancesOf | backend/app/main.py:101-138 | replaying from an empty map succeeds exactly when every pair unpacks; entries are the touched currencies, valued at their net change |
| Balances.ReplayAppend | backend/app/main.py:107-135 | replaying one more row is one more step after the replay of the rows before it |
| Balances.BuyRule | backend/app/main.py:115-120 | a buy adds `amount` to the base and subtracts `amount*price + fees` from the quote, and leaves other currencies unchanged |
| Balances.SellRule | backend/app/main.py:122-128 | a sell subtracts `amount` from the base and adds `amount*price - fees` to the quote, and leaves other currencies unchanged |
| Balances.TransferRule | backend/app/main.py:130-133 | a transfer adds `amount` to the base only and creates no quote entry |
| Balances.OtherTypeIgnored | backend/app/main.py:115-135 | a row of any other type changes nothing, but its pair must still unpack |
| Balances.MalformedRowFailsQuery | backend/app/main.py:108 | a single malformed pair fails the query, whatever the row's type |
| Balances.BuyThenSellExample | backend/app/main.py:115-128 | buying 1 BTC at 50000 and selling 0.5 at 60000 with fee 10 leaves 0.5 BTC and -20010 USD |
| Balances.ZeroEntriesRemain | backend/app/main.py:119-128 | a currency that returns to zero keeps its entry |
| Balances.TouchedMembers | backend/app/main.py:119-133 | a currency has an entry exactly when some row touches it |
| Balances.NetPermutation | backend/app/main.py:107-135 | a currency's net change does not depend on the order of the rows |
| Balances.BalancesIndependentOfOrder | backend/app/main.py:104-107 | any two orders of the same rows give the same result: the same snapshot, or both fail |
| Balances.StoredRowsListed | backend/app/main.py:104-107 | a listing of the table carries exactly the stored rows, so it is well formed and touches a currency exactly when the table does |
| Balances.GetBalances | backend/app/main.py:101-138 | the query fails exactly when some stored pair does not unpack; otherwise a currency has an entry exactly when a stored row touches it, holding the net change of the stored rows to it |
| Balances.ListingsSameTxns | backend/app/main.py:104-107 | any two listings of the table, each holding every stored row once, carry the same rows the same number of times |
| Balances.ListingsAgree | backend/app/main.py:104-138 | replaying any two listings of the table, each holding every stored row once, gives the same balances or fails in both |
| Balances.GetBalancesAnyOrder | backend/app/main.py:101-138 | the balances returned are each currency's net change over the stored rows taken in any order, so the scan order of the table does not matter |
| CsvImport.EndsWithStem | backend/app/main.py:142 | a name ends with ".csv" exactly when it is some stem followed by ".csv" |
| CsvImport.ParseRow | backend/app/main.py:152-161 | a record converts exactly when all six columns are present and amount, price and fees parse; each field comes from its column |
| CsvImport.ParseRows | backend/app/main.py:149-161 | all records convert or none do; on success there is one transaction per record, in record order |
| CsvImport.InsertAll | backend/app/main.py:163-165 | the insert adds every transaction under strictly increasing fresh keys and keeps existing rows |
| CsvImport.ImportCsv | backend/app/main.py:140-167 | a wrong suffix and a bad record are each rejected exactly when they occur; on success every record is inserted, nothing else changes, and the count is the number of records |
| CsvImport.InsertedAreListed | backend/app/main.py:163-165 | every inserted transaction is listed afterwards under a key that was not in the table |
| CsvImport.ImportThenList | backend/app/main.py:140-167 | after a successful import the listing shows every imported record under a new key |
| CsvImport.BadMiddleRowRejectsAll | backend/app/main.py:150-161 | a bad record between two good ones rejects the whole file |
| Form.Assign | frontend/src/App.js:60 | spreading the event into the draft sets the edited field and keeps all others |
| Form.HandleInputChange | frontend/src/App.js:55-74 | the typed value is kept; only the derived field also changes; a total edit sets `price = total/amount` and a price edit sets `total = price*amount` while the amount is positive; otherwise only the edited field changes |
| Form.ReconcileEstablishesConsistency | frontend/src/App.js:62-70 | with a positive amount, a price or total edit leaves price and total in agreement, and other non-amount edits keep that agreement |
| Form.AmountEditBreaksConsistency | frontend/src/App.js:55-74 | an amount edit re-derives nothing, so price and total can disagree afterwards |
| Form.PriceThenTotal | frontend/src/App.js:62-70 | typing a price and then the total it produced leaves the draft unchanged |
| Form.TotalThenPrice | frontend/src/App.js:62-70 | typing a total and then the price it produced leaves the draft unchanged |
| Form.ChangeIdempotent | frontend/src/App.js:55-74 | repeating the same input change has no further effect |
| Form.Find | frontend/src/App.js:135 | `find` by id succeeds exactly when a listed row has the id, and returns the first such row |
| Form.PayloadToDraft | frontend/src/App.js:114 | a row loaded into the form and submitted unchanged sends the row's own columns |
| Form.ToDraftPayload | frontend/src/App.js:114 | two drafts send the same columns exactly when they differ at most in total |
| Form.HandleEdit | frontend/src/App.js:134-138 | edit mode is entered for the id, with a listed row of that id as the draft; nothing is loaded when no listed row has it |
| Form.HandleSubmit | frontend/src/App.js:104-115 | a PUT to the edited id is sent exactly when `currentTransactionId` is truthy, otherwise a POST; the body is the draft's columns |
| Form.ResetThenSubmitCreates | frontend/src/App.js:140-151 | in the reset state `handleSubmit` builds a POST of the default columns, which adds exactly one row |
| Form.EditLoadsStoredRow | frontend/src/App.js:134-138 | editing a row of a listing of the table loads the stored columns of that key |
| Form.EditUnchangedKeepsStore | frontend/src/App.js:104-138 | editing a stored row and submitting it unchanged leaves the table as it was |
| Form.SubmitEffect | frontend/src/App.js:104-115 | in edit mode a submit replaces exactly the edited row, or is not-found; otherwise it adds one row under a fresh key |
| Form.ResetForm | frontend/src/App.js:140-151 | leaves edit mode and restores the default draft |
| Form.ToDraft | frontend/src/App.js:137 | a loaded row has no total; re-entering its price derives exactly the total the table shows for it, or leaves the draft unchanged when the amount is not positive |
| Form.Payload | frontend/src/App.js:114 | the submitted columns, loaded back, give the draft without its total; a consistent draft shows its typed total in the table |
| Form.Serve | frontend/src/App.js:106-111 | a POST adds the body under a fresh key; a PUT succeeds exactly when the id is stored, and then sets that row to the body |
| Form.AfterResponse | frontend/src/App.js:116-121 | after any JSON answer the form is reset, so it leaves edit mode and the next submit is a POST |
| Form.SubmitLeavesEditMode | frontend/src/App.js:104-123 | after any JSON answer to a submit, the not-found of an update included, the form is outside edit mode with the default draft |
| Form.DisplayedTotal | frontend/src/App.js:307 | while the row's amount is positive, typing the shown total into a form holding that amount gives back the row's price |
| Form.DisplayedTotalIgnoresTypedTotal | frontend/src/App.js:307 | the shown total is `amount*price` of the stored row and never depends on a total typed into the form |

## Left out

- Rendering, the material-UI layout, `fetch`, `alert` and the promise chains: a request is a value (`Form.Request`) and `Form.Serve` is the route it reaches. The refresh of transactions and balances after a response is not modelled. The `resetForm()` that follows any JSON answer is modelled (`Form.AfterResponse`). A request that rejects, such as a network error or a body that is not JSON, skips it and keeps edit mode; that path is not modelled.
- `handleDelete`, `handleFileChange` and `handleFileUpload` on the client: each only forwards to a backend route that is modelled (`DeleteTransaction`, `ImportCsv`).
- FastAPI routing, pydantic validation of request bodies, HTTP status codes and response messages: errors are `Result` values.
- SQLite itself: the table is a map. The key rule for a table without AUTOINCREMENT is modelled: largest key plus one, or 1 when empty. The random key chosen once the largest key reaches 2^63-1 is not modelled.
- Form.HandleInputChange: form values are JavaScript strings compared with `>` and parsed by `parseFloat`. The model uses numbers, so string coercion, `NaN` and empty input are not modelled.
- Floating point: amounts, prices, fees and totals are exact reals. Rounding, `float()` of stored values, and `toFixed(8)` in the displayed total are left out.
- CsvImport.ImportCsv: UTF-8 decoding and `csv.DictReader` are library work. A record is given as a map from header to cell, so a short record is outside the model. DictReader pads a short record with `None`. When a numeric cell is missing, `float(None)` raises a `TypeError` that the handler does not catch, which is a server error. When only `date`, `pair` or `type` is missing, the import succeeds and stores NULL in that column. A NULL `pair` later makes the balance query fail at the split. A NULL in any of the three also makes every later listing fail: the listing's response model declares them as strings, so validation fails with a server error. Number parsing is the parameter `parse`.
- The debug `print` calls in the balance query.
- Concurrency: every handler is `async` and awaits the database, and the import's `execute_many` runs outside any database transaction. The model treats each request as one sequential, atomic step on the table. A request that interleaves with an import, such as a balance query that sees only part of the file, is not modelled.
- Balances.BalancesOf: a malformed pair makes the service fail with an uncaught `ValueError` (a server error that names nothing). The `MalformedPair` payload is the model's own record of which row failed.
- Ledger.UpdateTransaction: the 404 tests the value the database driver returns for the statement, not a count of matched rows. The model reads it as "a row with this key existed", since the driver's return value is not modelled.
- Ledger.DeleteTransaction: the same as for update. The 404 tests the driver's return value, modelled as "a row with this key existed".
- Form.HandleSubmit: the browser's `required` check on the date, pair, amount, price and fees inputs (frontend/src/App.js:216-277) is not modelled. It stops `onSubmit` from firing while one of them is empty, so the model also builds requests for drafts the browser would not submit, the reset draft among them.
- Form.HandleEdit: `find` uses `===`, so a key of a different JavaScript type never matches. The model compares integers. With no match the client would load `undefined` as the draft; the model returns `None`.

=== FILE: balances.dfy ===
/**
 The balance query `get_balances` (backend/app/main.py:101-138): a replay of
 every stored row, starting from an empty map, that credits and debits the two
 currencies of each row's pair according to its `type`.
 */
module Balances {
  import opened Wrappers
  import opened Pairs
  import opened Ledger

  /** Net balance per currency symbol. */
  type Snapshot = map<string, real>

  /** A row whose pair does not unpack into two names makes the whole query
      fail. In the service this is an uncaught `ValueError` (a server error
      that names nothing); the pair carried here is the model's own record of
      which row failed. */
  datatype BalanceError = MalformedPair(pair: string)

  /** `balances.get(c, 0)`. */
  function Get(b: Snapshot, c: string): real
  {
    if c in b then b[c] else 0.0
  }

  // Reference definition: what a single row contributes to each currency,
  // and which currencies it names, stated currency by currency.

  /** The currencies a row with sides `(base, quote)` gets an entry for. */
  function Touches(base: string, quote: string, kind: string): set<string>
  {
    if kind == "buy" || kind == "sell" then {base, quote}
    else if kind == "transfer" then {base}
    else {}
  }

  /** The change a row with sides `(base, quote)` makes to currency `c`:
      a buy gains `amount` of the base and pays `amount * price + fees` of the
      quote; a sell gives up `amount` of the base and receives
      `amount * price - fees` of the quote; a transfer gains `amount` of the
      base and ignores price and fees; any other type changes nothing. */
  function Delta(base: string, quote: string, t: Txn, c: string): real
  {
    var onBase := if c == base then t.amount else 0.0;
    var onQuote := if c == quote then t.amount * t.price else 0.0;
    var feeOnQuote := if c == quote then t.fees else 0.0;
    if t.kind == "buy" then onBase - onQuote - feeOnQuote
    else if t.kind == "sell" then -onBase + onQuote - feeOnQuote
    else if t.kind == "transfer" then onBase
    else 0.0
  }

  /** One replay step for a row whose pair unpacked to `(base, quote)`. The
      quote update reads the map after the base update, so a pair whose two
      sides coincide accumulates both changes. The step adds each currency's
      `Delta` and creates exactly the entries the row `Touches`. */
  function Apply(b: Snapshot, base: string, quote: string, t: Txn): (r: Snapshot)
    ensures r.Keys == b.Keys + Touches(base, quote, t.kind)
    ensures forall c :: Get(r, c) == Get(b, c) + Delta(base, quote, t, c)
  {
    if t.kind == "buy" then
      var b1 := b[base := Get(b, base) + t.amount];
      b1[quote := Get(b1, quote) - (t.amount * t.price + t.fees)]
    else if t.kind == "sell" then
      var b1 := b[base := Get(b, base) - t.amount];
      b1[quote := Get(b1, quote) + (t.amount * t.price - t.fees)]
    else if t.kind == "transfer" then
      b[base := Get(b, base) + t.amount]
    else
      b
  }

  /** Whether every row's pair unpacks. */
  ghost predicate AllPairsWellFormed(rows: seq<Txn>)
  {
    forall i :: 0 <= i < |rows| ==> PairOf(rows[i].pair).Some?
  }

  /** Currencies a row names, or none when its pair does not unpack. */
  function RowTouches(t: Txn): set<string>
  {
    match PairOf(t.pair)
    case Some((base, quote)) => Touches(base, quote, t.kind)
    case None => {}
  }

  /** A row's change to currency `c`, or none when its pair does not unpack. */
  function RowDelta(t: Txn, c: string): real
  {
    match PairOf(t.pair)
    case Some((base, quote)) => Delta(base, quote, t, c)
    case None => 0.0
  }

  /** Currencies touched by the rows. */
  function Touched(rows: seq<Txn>): set<string>
  {
    if |rows| == 0 then {} else RowTouches(rows[0]) + Touched(rows[1..])
  }

  /** Sum of the rows' changes to currency `c`. */
  function Net(rows: seq<Txn>, c: string): real
  {
    if |rows| == 0 then 0.0 else RowDelta(rows[0], c) + Net(rows[1..], c)
  }

  /** `m` is `b` with the rows' changes added: every touched currency has an
      entry, and each currency holds its value in `b` plus its net change. */
  ghost predicate Accumulates(b: Snapshot, rows: seq<Txn>, m: Snapshot)
  {
    && m.Keys == b.Keys + Touched(rows)
    && forall c :: Get(m, c) == Get(b, c) + Net(rows, c)
  }

  /** The loop of `get_balances` from snapshot `b`: fails on the first row
      whose pair does not unpack; otherwise every touched currency has an
      entry holding its starting value plus the rows' net change. */
  function Replay(b: Snapshot, rows: seq<Txn>): (r: Result<Snapshot, BalanceError>)
    ensures r.Failure? <==> exists i :: 0 <= i < |rows| && PairOf(rows[i].pair).None?
    ensures r.Failure? ==> exists i :: 0 <= i < |rows| && r.error == MalformedPair(rows[i].pair)
                                                     && PairOf(rows[i].pair).None?
    ensures r.Success? ==> Accumulates(b, rows, r.value)
    decreases |rows|
  {
    if |rows| == 0 then Success(b)
    else
      match PairOf(rows[0].pair)
      case None => Failure(MalformedPair(rows[0].pair))
      case Some((base, quote)) =>
        var r := Replay(Apply(b, base, quote, rows[0]), rows[1..]);
        assert forall i :: 0 <= i < |rows| - 1 ==> rows[1..][i] == rows[i + 1];
        r
  }

  /** The replay of a listing from an empty map: it succeeds exactly when
      every pair unpacks, and then holds an entry exactly for each touched
      currency, equal to that currency's net change. */
  function BalancesOf(rows: seq<Txn>): (r: Result<Snapshot, BalanceError>)
    ensures r.Success? <==> AllPairsWellFormed(rows)
    ensures r.Success? ==> r.value.Keys == Touched(rows)
    ensures r.Success? ==> forall c :: c in r.value ==> r.value[c] == Net(rows, c)
  {
    Replay(map[], rows)
  }

  /** The result of replaying one more row after a replay that ended in `r`. */
  function Then(r: Result<Snapshot, BalanceError>, t: Txn): Result<Snapshot, BalanceError>
  {
    match r
    case Failure(e) => Failure(e)
    case Success(m) =>
      match PairOf(t.pair)
      case None => Failure(MalformedPair(t.pair))
      case Some((base, quote)) => Success(Apply(m, base, quote, t))
  }

  /** Replaying `rows + [t]` is replaying `rows` and then the row `t`. */
  lemma {:induction false} ReplayAppend(b: Snapshot, rows: seq<Txn>, t: Txn)
    ensures Replay(b, rows + [t]) == Then(Replay(b, rows), t)
    decreases |rows|
  {
    if |rows| == 0 {
      assert rows + [t] == [t];
      assert [t][1..] == [];
    } else {
      var all := rows + [t];
      assert all[0] == rows[0] && all[1..] == rows[1..] + [t];
      match PairOf(rows[0].pair)
      case None =>
      case Some((base, quote)) =>
        ReplayAppend(Apply(b, base, quote, rows[0]), rows[1..], t);
    }
  }

  /** A `buy` row adds `amount` to the base currency and subtracts
      `amount * price + fees` from the quote currency; when the two sides
      coincide both changes land on the same entry. Every other currency is
      left as it was. */
  lemma BuyRule(rows: seq<Txn>, t: Txn, base: string, quote: string)
    requires BalancesOf(rows).Success?
    requires PairOf(t.pair) == Some((base, quote)) && t.kind == "buy"
    ensures BalancesOf(rows + [t]).Success?
    ensures var m, m' := BalancesOf(rows).value, BalancesOf(rows + [t]).value;
            && m'.Keys == m.Keys + {base, quote}
            && (base != quote ==> Get(m', base) == Get(m, base) + t.amount)
            && (base != quote ==> Get(m', quote) == Get(m, quote) - (t.amount * t.price + t.fees))
            && (base == quote ==> Get(m', base) == Get(m, base) + t.amount - (t.amount * t.price + t.fees))
            && forall c :: c != base && c != quote ==> Get(m', c) == Get(m, c)
  {
    ReplayAppend(map[], rows, t);
  }

  /** A `sell` row subtracts `amount` from the base currency and adds
      `amount * price - fees` to the quote currency. */
  lemma SellRule(rows: seq<Txn>, t: Txn, base: string, quote: string)
    requires BalancesOf(rows).Success?
    requires PairOf(t.pair) == Some((base, quote)) && t.kind == "sell"
    ensures BalancesOf(rows + [t]).Success?
    ensures var m, m' := BalancesOf(rows).value, BalancesOf(rows + [t]).value;
            && m'.Keys == m.Keys + {base, quote}
            && (base != quote ==> Get(m', base) == Get(m, base) - t.amount)
            && (base != quote ==> Get(m', quote) == Get(m, quote) + (t.amount * t.price - t.fees))
            && (base == quote ==> Get(m', base) == Get(m, base) - t.amount + (t.amount * t.price - t.fees))
            && forall c :: c != base && c != quote ==> Get(m', c) == Get(m, c)
  {
    ReplayAppend(map[], rows, t);
  }

  /** A `transfer` row adds `amount` to the base currency only: its price
      and fees are ignored and no entry is created for the quote currency. */
  lemma TransferRule(rows: seq<Txn>, t: Txn, base: string, quote: string)
    requires BalancesOf(rows).Success?
    requires PairOf(t.pair) == Some((base, quote)) && t.kind == "transfer"
    ensures BalancesOf(rows + [t]).Success?
    ensures var m, m' := BalancesOf(rows).value, BalancesOf(rows + [t]).value;
            && m'.Keys == m.Keys + {base}
            && Get(m', base) == Get(m, base) + t.amount
            && forall c :: c != base ==> Get(m', c) == Get(m, c)
  {
    ReplayAppend(map[], rows, t);
  }

  /** A row of any other type leaves the balances exactly as they were,
      but its pair must still unpack. */
  lemma OtherTypeIgnored(rows: seq<Txn>, t: Txn)
    requires BalancesOf(rows).Success?
    requires t.kind != "buy" && t.kind != "sell" && t.kind != "transfer"
    ensures BalancesOf(rows + [t]).Success? <==> PairOf(t.pair).Some?
    ensures PairOf(t.pair).Some? ==> BalancesOf(rows + [t]) == BalancesOf(rows)
  {
    ReplayAppend(map[], rows, t);
  }

  /** A row whose pair lacks the separator fails the query even when it is
      a transfer or of an unknown type. */
  lemma MalformedRowFailsQuery(date: string, amount: real, price: real, fees: real)
    ensures BalancesOf([Txn(date, "BTCUSD", amount, price, "transfer", fees)]).Failure?
    ensures BalancesOf([Txn(date, "A-B-C", amount, price, "deposit", fees)])
            == Failure(MalformedPair("A-B-C"))
  {
    PairOfMalformed();
  }

  /** Buying 1 BTC at 50000 USD without fee and then selling 0.5 BTC at
      60000 USD with a fee of 10 leaves 0.5 BTC and -20010 USD. */
  lemma BuyThenSellExample()
    ensures BalancesOf([Txn("2024-01-01", "BTC-USD", 1.0, 50000.0, "buy", 0.0),
                         Txn("2024-01-02", "BTC-USD", 0.5, 60000.0, "sell", 10.0)])
            == Success(map["BTC" := 0.5, "USD" := -20010.0])
  {
    PairOfBtcUsd();
    var buy := Txn("2024-01-01", "BTC-USD", 1.0, 50000.0, "buy", 0.0);
    var sell := Txn("2024-01-02", "BTC-USD", 0.5, 60000.0, "sell", 10.0);
    var rows := [buy, sell];
    assert rows[1..] == [sell] && rows[1..][1..] == [];
    var m1 := Apply(map[], "BTC", "USD", buy);
    assert m1 == map["BTC" := 1.0, "USD" := -50000.0];
    var m2 := Apply(m1, "BTC", "USD", sell);
    assert m2 == map["BTC" := 0.5, "USD" := -20010.0];
    assert Replay(m2, []) == Success(m2);
    assert Replay(m1, [sell]) == Success(m2);
  }

  /** Entries stay once touched, even when they return to zero. */
  lemma ZeroEntriesRemain(date: string)
    ensures BalancesOf([Txn(date, "ETH-EUR", 2.0, 100.0, "buy", 0.0),
                         Txn(date, "ETH-EUR", 2.0, 100.0, "sell", 0.0)])
            == Success(map["ETH" := 0.0, "EUR" := 0.0])
  {
    var buy := Txn(date, "ETH-EUR", 2.0, 100.0, "buy", 0.0);
    var sell := Txn(date, "ETH-EUR", 2.0, 100.0, "sell", 0.0);
    PairOfExact("ETH-EUR", "ETH", "EUR");
    var rows := [buy, sell];
    assert rows[1..] == [sell] && rows[1..][1..] == [];
    var m1 := Apply(map[], "ETH", "EUR", buy);
    assert m1 == map["ETH" := 2.0, "EUR" := -200.0];
    var m2 := Apply(m1, "ETH", "EUR", sell);
    assert m2 == map["ETH" := 0.0, "EUR" := 0.0];
    assert Replay(m2, []) == Success(m2);
    assert Replay(m1, [sell]) == Success(m2);
  }

  // Order independence: the query reads the table, which has no order of its
  // own, so the snapshot must not depend on the order the rows are listed in.

  lemma {:induction false} NetAppend(a: seq<Txn>, b: seq<Txn>, c: string)
    ensures Net(a + b, c) == Net(a, c) + Net(b, c)
    decreases |a|
  {
    if |a| == 0 {
      assert a + b == b;
    } else {
      assert (a + b)[0] == a[0] && (a + b)[1..] == a[1..] + b;
      NetAppend(a[1..], b, c);
    }
  }

  /** The net change of a listing is the change of its `j`-th row plus the
      net change of the other rows. */
  lemma NetAt(ys: seq<Txn>, j: int, c: string)
    requires 0 <= j < |ys|
    ensures Net(ys, c) == RowDelta(ys[j], c) + Net(ys[..j] + ys[j + 1..], c)
  {
    var front, rest := ys[..j], ys[j..];
    assert ys == front + rest;
    NetAppend(front, rest, c);
    assert rest[1..] == ys[j + 1..];
    NetAppend(front, ys[j + 1..], c);
  }

  /** Two listings of the same rows still list the same rows once a copy of
      the first row of one is taken out of the other. */
  lemma RemoveFirst(xs: seq<Txn>, ys: seq<Txn>, j: int)
    requires multiset(xs) == multiset(ys) && |xs| > 0
    requires 0 <= j < |ys| && ys[j] == xs[0]
    ensures multiset(xs[1..]) == multiset(ys[..j] + ys[j + 1..])
  {
    assert ys == ys[..j] + [ys[j]] + ys[j + 1..];
    assert multiset(ys) == multiset(ys[..j]) + multiset{ys[j]} + multiset(ys[j + 1..]);
    assert xs == [xs[0]] + xs[1..];
    assert multiset(xs) == multiset{xs[0]} + multiset(xs[1..]);
    assert multiset(ys[..j] + ys[j + 1..]) == multiset(ys[..j]) + multiset(ys[j + 1..]);
    assert multiset(ys[..j] + ys[j + 1..]) == multiset(ys) - multiset{ys[j]};
    assert multiset(xs[1..]) == multiset(xs) - multiset{xs[0]};
  }

  /** The net change to a currency does not depend on the order of the rows. */
  lemma {:induction false} NetPermutation(xs: seq<Txn>, ys: seq<Txn>, c: string)
    requires multiset(xs) == multiset(ys)
    ensures Net(xs, c) == Net(ys, c)
    decreases |xs|
  {
    if |xs| == 0 {
      assert |multiset(ys)| == 0;
    } else {
      assert xs[0] in multiset(ys);
      var j :| 0 <= j < |ys| && ys[j] == xs[0];
      RemoveFirst(xs, ys, j);
      NetPermutation(xs[1..], ys[..j] + ys[j + 1..], c);
      NetAt(ys, j, c);
    }
  }

  /** A currency is touched exactly when some row touches it. */
  lemma {:induction false} TouchedMembers(rows: seq<Txn>, c: string)
    ensures c in Touched(rows) <==> exists i :: 0 <= i < |rows| && c in RowTouches(rows[i])
    decreases |rows|
  {
    if |rows| > 0 {
      TouchedMembers(rows[1..], c);
      if c in Touched(rows[1..]) {
        var i :| 0 <= i < |rows| - 1 && c in RowTouches(rows[1..][i]);
        assert rows[i + 1] == rows[1..][i];
      }
      if exists i :: 0 <= i < |rows| && c in RowTouches(rows[i]) {
        var i :| 0 <= i < |rows| && c in RowTouches(rows[i]);
        if i > 0 {
          assert rows[1..][i - 1] == rows[i];
        }
      }
    }
  }

  /** Two listings with the same rows agree on whether every pair unpacks. */
  lemma WellFormedSameRows(xs: seq<Txn>, ys: seq<Txn>)
    requires forall t :: t in ys ==> t in xs
    requires AllPairsWellFormed(xs)
    ensures AllPairsWellFormed(ys)
  {
    forall j | 0 <= j < |ys|
      ensures PairOf(ys[j].pair).Some?
    {
      assert ys[j] in xs;
      var i :| 0 <= i < |xs| && xs[i] == ys[j];
    }
  }

  /** Two listings with the same rows touch the same currencies. */
  lemma TouchedSameRows(xs: seq<Txn>, ys: seq<Txn>)
    requires forall t :: t in ys ==> t in xs
    requires forall t :: t in xs ==> t in ys
    ensures Touched(xs) == Touched(ys)
  {
    forall c
      ensures c in Touched(xs) <==> c in Touched(ys)
    {
      TouchedMembers(xs, c);
      TouchedMembers(ys, c);
      if c in Touched(xs) {
        var i :| 0 <= i < |xs| && c in RowTouches(xs[i]);
        assert xs[i] in ys;
        var j :| 0 <= j < |ys| && ys[j] == xs[i];
      }
      if c in Touched(ys) {
        var j :| 0 <= j < |ys| && c in RowTouches(ys[j]);
        assert ys[j] in xs;
        var i :| 0 <= i < |xs| && xs[i] == ys[j];
      }
    }
  }

  /** Listing the same rows in another order gives the same outcome: both
      succeed with the same snapshot, or both fail. */
  lemma BalancesIndependentOfOrder(xs: seq<Txn>, ys: seq<Txn>)
    requires multiset(xs) == multiset(ys)
    ensures BalancesOf(xs).Success? <==> BalancesOf(ys).Success?
    ensures BalancesOf(xs).Success? ==> BalancesOf(xs) == BalancesOf(ys)
  {
    forall t | t in xs
      ensures t in ys
    {
      assert t in multiset(ys);
    }
    forall t | t in ys
      ensures t in xs
    {
      assert t in multiset(xs);
    }
    if AllPairsWellFormed(xs) {
      WellFormedSameRows(xs, ys);
    }
    if AllPairsWellFormed(ys) {
      WellFormedSameRows(ys, xs);
    }
    if BalancesOf(xs).Success? && BalancesOf(ys).Success? {
      var a, b := BalancesOf(xs).value, BalancesOf(ys).value;
      TouchedSameRows(xs, ys);
      forall c | c in a
        ensures a[c] == b[c]
      {
        NetPermutation(xs, ys, c);
      }
      assert a == b;
    }
  }

  /** The columns of a listing, in listing order. */
  function Txns(rows: seq<Row>): seq<Txn>
  {
    seq(|rows|, i requires 0 <= i < |rows| => rows[i].txn)
  }

  /** `get_balances`: fetch every stored row and replay them from an empty
      map. The query fails exactly when some stored pair does not unpack;
      otherwise a currency has an entry exactly when a stored row touches it,
      and holds the net change of the listed rows to it (which does not depend
      on the scan order, see `GetBalancesAnyOrder`). */
  function GetBalances(s: Store): (r: Result<Snapshot, BalanceError>)
    ensures r.Success? <==> forall k :: k in s ==> PairOf(s[k].pair).Some?
    ensures r.Success? ==> forall c :: c in r.value <==> exists k :: k in s && c in RowTouches(s[k])
    ensures r.Success? ==> forall c :: c in r.value ==> r.value[c] == Net(Txns(GetTransactions(s)), c)
  {
    var listed := GetTransactions(s);
    StoredRowsListed(s, listed);
    BalancesOf(Txns(listed))
  }

  /** A listing's columns are exactly the stored rows' columns. */
  lemma StoredRowsListed(s: Store, listed: seq<Row>)
    requires RowsStored(s, listed) && RowsCover(s, listed)
    ensures forall t :: t in Txns(listed) <==> exists k :: k in s && s[k] == t
    ensures AllPairsWellFormed(Txns(listed)) <==> forall k :: k in s ==> PairOf(s[k].pair).Some?
    ensures forall c :: c in Touched(Txns(listed)) <==> exists k :: k in s && c in RowTouches(s[k])
  {
    var ts := Txns(listed);
    forall t | t in ts
      ensures exists k :: k in s && s[k] == t
    {
      var i :| 0 <= i < |ts| && ts[i] == t;
      assert s[listed[i].id] == t;
    }
    forall k | k in s
      ensures s[k] in ts
    {
      var i :| 0 <= i < |listed| && listed[i].id == k;
      assert ts[i] == s[k];
    }
    forall c
      ensures c in Touched(ts) <==> exists k :: k in s && c in RowTouches(s[k])
    {
      TouchedMembers(ts, c);
      if c in Touched(ts) {
        var i :| 0 <= i < |ts| && c in RowTouches(ts[i]);
        assert ts[i] in ts;
      }
      if exists k :: k in s && c in RowTouches(s[k]) {
        var k :| k in s && c in RowTouches(s[k]);
        assert s[k] in ts;
        var i :| 0 <= i < |ts| && ts[i] == s[k];
      }
    }
    if AllPairsWellFormed(ts) {
      forall k | k in s
        ensures PairOf(s[k].pair).Some?
      {
        assert s[k] in ts;
        var i :| 0 <= i < |ts| && ts[i] == s[k];
      }
    }
    if forall k :: k in s ==> PairOf(s[k].pair).Some? {
      forall i | 0 <= i < |ts|
        ensures PairOf(ts[i].pair).Some?
      {
        assert ts[i] in ts;
      }
    }
  }

  /** The columns of a listing with the row at `j` taken out, plus that
      row's columns, are the columns of the whole listing. */
  lemma TxnsRemove(rows: seq<Row>, j: int)
    requires 0 <= j < |rows|
    ensures multiset(Txns(rows)) == multiset(Txns(rows[..j] + rows[j + 1..])) + multiset{rows[j].txn}
  {
    var ts := Txns(rows);
    var ts' := Txns(rows[..j] + rows[j + 1..]);
    assert ts == ts[..j] + [ts[j]] + ts[j + 1..];
    assert ts' == ts[..j] + ts[j + 1..];
  }

  /** Two listings of the table, in whatever order, carry the same columns
      the same number of times. */
  lemma {:induction false} ListingsSameTxns(s: Store, xs: seq<Row>, ys: seq<Row>)
    requires ListsUnordered(s, xs) && ListsUnordered(s, ys)
    ensures multiset(Txns(xs)) == multiset(Txns(ys))
    decreases |xs|
  {
    if |xs| == 0 {
      assert |ys| == 0;
      assert Txns(xs) == Txns(ys) == [];
    } else {
      var k := xs[0].id;
      assert k in s;
      var j :| 0 <= j < |ys| && ys[j].id == k;
      assert ys[j].txn == s[k] == xs[0].txn;
      var xs', ys' := xs[..0] + xs[1..], ys[..j] + ys[j + 1..];
      RemoveListedRow(s, xs, 0);
      RemoveListedRow(s, ys, j);
      ListingsSameTxns(s - {k}, xs', ys');
      TxnsRemove(xs, 0);
      TxnsRemove(ys, j);
    }
  }

  /** Replaying any two listings of the table gives the same outcome: both
      succeed with the same balances, or both fail. */
  lemma ListingsAgree(s: Store, xs: seq<Row>, ys: seq<Row>)
    requires ListsUnordered(s, xs) && ListsUnordered(s, ys)
    ensures BalancesOf(Txns(xs)).Success? <==> BalancesOf(Txns(ys)).Success?
    ensures BalancesOf(Txns(xs)).Success? ==> BalancesOf(Txns(xs)) == BalancesOf(Txns(ys))
  {
    ListingsSameTxns(s, xs, ys);
    BalancesIndependentOfOrder(Txns(xs), Txns(ys));
  }

  /** Every entry of `m` is its currency's net change over `rows`. */
  ghost predicate HoldsNet(m: Snapshot, rows: seq<Txn>)
  {
    forall c :: c in m ==> m[c] == Net(rows, c)
  }

  /** The balances `get_balances` returns are the net changes of the stored
      rows listed in any order: the scan order of the table does not matter. */
  lemma GetBalancesAnyOrder(s: Store, listed: seq<Row>)
    requires ListsUnordered(s, listed)
    ensures var r := GetBalances(s);
            && (r.Success? <==> BalancesOf(Txns(listed)).Success?)
            && (r.Success? ==> HoldsNet(r.value, Txns(listed)))
  {
    var scanned := GetTransactions(s);
    OrderedIsUnordered(s, scanned);
    ListingsAgree(s, scanned, listed);
  }
}

=== FILE: csv_import.dfy ===
/**
 `import_csv` (backend/app/main.py:140-167): accepts a file whose name ends in
 `.csv`, turns every record into a transaction, and inserts them all only if
 every record is valid. Decoding the bytes and splitting the text into records
 are library work; a record arrives here as a map from header name to cell
 text, and number parsing is the parameter `parse`.
 */
module CsvImport {
  import opened Wrappers
  import opened Ledger

  /** One CSV record: header name to cell text. */
  type CsvRow = map<string, string>

  datatype ImportError =
    | OnlyCsvAllowed    // the file name does not end in ".csv"
    | InvalidCsvFormat  // some record lacks a column or has a non-numeric number

  /** A successful import: the new table and the number reported in
      "Successfully imported n transactions". */
  datatype Imported = Imported(store: Store, count: nat)

  const CsvSuffix: string := ".csv"

  /** Python's `s.endswith(suffix)`. */
  predicate EndsWith(s: string, suffix: string)
  {
    |suffix| <= |s| && s[|s| - |suffix|..] == suffix
  }

  /** A name ends with a suffix exactly when it is some stem followed by it. */
  lemma EndsWithStem(s: string, suffix: string)
    ensures EndsWith(s, suffix) <==> exists stem: string :: stem + suffix == s
  {
    if EndsWith(s, suffix) {
      var stem := s[..|s| - |suffix|];
      assert stem + suffix == s;
    }
    if exists stem: string :: stem + suffix == s {
      var stem: string :| stem + suffix == s;
      assert s[|s| - |suffix|..] == suffix;
    }
  }

  /** `row[key]`, failing as the `KeyError` does when the header lacks it. */
  function Cell(row: CsvRow, key: string): Option<string>
  {
    if key in row then Some(row[key]) else None
  }

  /** `float(row[key])`: a missing column or an unparsable cell fails. */
  function Number(row: CsvRow, key: string, parse: string -> Option<real>): Option<real>
  {
    var text :- Cell(row, key);
    parse(text)
  }

  /** A record is importable when all six columns are present and the three
      numeric ones parse. The `type` cell is taken as it is. */
  ghost predicate Importable(row: CsvRow, parse: string -> Option<real>)
  {
    && "date" in row && "pair" in row && "type" in row
    && "amount" in row && parse(row["amount"]).Some?
    && "price" in row && parse(row["price"]).Some?
    && "fees" in row && parse(row["fees"]).Some?
  }

  /** One record to a transaction, reading the cells in the source's order. */
  function ParseRow(row: CsvRow, parse: string -> Option<real>): (r: Option<Txn>)
    ensures r.Some? <==> Importable(row, parse)
    ensures r.Some? ==> r.value.date == row["date"] && r.value.pair == row["pair"]
                        && r.value.kind == row["type"]
                        && Some(r.value.amount) == parse(row["amount"])
                        && Some(r.value.price) == parse(row["price"])
                        && Some(r.value.fees) == parse(row["fees"])
  {
    var date :- Cell(row, "date");
    var pair :- Cell(row, "pair");
    var amount :- Number(row, "amount", parse);
    var price :- Number(row, "price", parse);
    var kind :- Cell(row, "type");
    var fees :- Number(row, "fees", parse);
    Some(Txn(date, pair, amount, price, kind, fees))
  }

  /** The parsing loop: the first bad record aborts it; otherwise one
      transaction per record, in record order. */
  function ParseRows(rows: seq<CsvRow>, parse: string -> Option<real>): (r: Option<seq<Txn>>)
    ensures r.Some? <==> forall i :: 0 <= i < |rows| ==> ParseRow(rows[i], parse).Some?
    ensures r.Some? ==> |r.value| == |rows|
    ensures r.Some? ==> forall i :: 0 <= i < |rows| ==> Some(r.value[i]) == ParseRow(rows[i], parse)
    decreases |rows|
  {
    if |rows| == 0 then Some([])
    else
      var first :- ParseRow(rows[0], parse);
      var rest :- ParseRows(rows[1..], parse);
      assert forall i :: 0 < i < |rows| ==> rows[i] == rows[1..][i - 1];
      Some([first] + rest)
  }

  datatype Inserted = Inserted(store: Store, ids: seq<int>)

  /** `ids` are strictly increasing and larger than every key of `s`. */
  ghost predicate FreshIncreasing(s: Store, ids: seq<int>)
  {
    && (forall i, k :: 0 <= i < |ids| && k in s ==> k < ids[i])
    && (forall i, j :: 0 <= i < j < |ids| ==> ids[i] < ids[j])
  }

  /** `s'` is `s` with `txns[i]` added under key `ids[i]`, and nothing else. */
  ghost predicate Extends(s: Store, ids: seq<int>, txns: seq<Txn>, s': Store)
    requires |ids| == |txns|
  {
    && (forall k :: k in s' <==> k in s || k in ids)
    && (forall i :: 0 <= i < |ids| ==> ids[i] in s' && s'[ids[i]] == txns[i])
    && (forall k :: k in s ==> s'[k] == s[k])
  }

  /** Adding one transaction and then the rest adds them all. */
  lemma InsertCons(s: Store, t: Txn, txns: seq<Txn>, a: Added, rest: Inserted)
    requires a == AddTransaction(s, t)
    requires |rest.ids| == |txns|
    requires FreshIncreasing(a.store, rest.ids)
    requires Extends(a.store, rest.ids, txns, rest.store)
    ensures FreshIncreasing(s, [a.id] + rest.ids)
    ensures Extends(s, [a.id] + rest.ids, [t] + txns, rest.store)
  {
    var ids := [a.id] + rest.ids;
    var all := [t] + txns;
    assert forall i :: 0 < i < |ids| ==> ids[i] == rest.ids[i - 1] && all[i] == txns[i - 1];
    assert forall k :: k in s ==> k in a.store;
    forall i, j | 0 <= i < j < |ids|
      ensures ids[i] < ids[j]
    {
      if i == 0 {
        assert a.id in a.store;
      }
    }
  }

  /** `execute_many` of the insert: the transactions are added one after the
      other, each under a key larger than every key present before it. */
  function InsertAll(s: Store, txns: seq<Txn>): (r: Inserted)
    ensures |r.ids| == |txns|
    ensures FreshIncreasing(s, r.ids)
    ensures Extends(s, r.ids, txns, r.store)
    ensures |r.store| == |s| + |txns|
    decreases |txns|
  {
    if |txns| == 0 then Inserted(s, [])
    else
      var a := AddTransaction(s, txns[0]);
      var rest := InsertAll(a.store, txns[1..]);
      InsertCons(s, txns[0], txns[1..], a, rest);
      assert [txns[0]] + txns[1..] == txns;
      Inserted(rest.store, [a.id] + rest.ids)
  }

  /** `import_csv`: a name not ending in ".csv" is refused; otherwise any bad
      record refuses the whole file and nothing is inserted; otherwise every
      record is inserted and their number is reported. The `type` column is
      never checked. */
  function ImportCsv(s: Store, filename: string, rows: seq<CsvRow>, parse: string -> Option<real>)
    : (r: Result<Imported, ImportError>)
    ensures r == Failure(OnlyCsvAllowed) <==> !EndsWith(filename, CsvSuffix)
    ensures r == Failure(InvalidCsvFormat)
            <==> EndsWith(filename, CsvSuffix) && exists i :: 0 <= i < |rows| && !Importable(rows[i], parse)
    ensures r.Success? ==> r.value.count == |rows| && |r.value.store| == |s| + |rows|
    ensures r.Success? ==> forall k :: k in s ==> k in r.value.store && r.value.store[k] == s[k]
    ensures r.Success? ==> ParseRows(rows, parse).Some?
                           && r.value.store == InsertAll(s, ParseRows(rows, parse).value).store
  {
    if !EndsWith(filename, CsvSuffix) then Failure(OnlyCsvAllowed)
    else
      match ParseRows(rows, parse)
      case None => Failure(InvalidCsvFormat)
      case Some(txns) => Success(Imported(InsertAll(s, txns).store, |txns|))
  }

  /** The `i`-th inserted transaction sits under a new key. */
  lemma InsertedEntry(s: Store, txns: seq<Txn>, i: int)
    requires 0 <= i < |txns|
    ensures var ins := InsertAll(s, txns);
            ins.ids[i] !in s && ins.ids[i] in ins.store && ins.store[ins.ids[i]] == txns[i]
  {
  }

  /** Each of `txns` appears in `listed` under a key that `s` lacks. */
  ghost predicate ShowsAll(listed: seq<Row>, s: Store, txns: seq<Txn>)
  {
    forall i :: 0 <= i < |txns| ==>
      exists j :: 0 <= j < |listed| && listed[j].id !in s && listed[j].txn == txns[i]
  }

  /** Every inserted transaction is listed afterwards under a new key. */
  lemma InsertedAreListed(s: Store, txns: seq<Txn>)
    ensures ShowsAll(GetTransactions(InsertAll(s, txns).store), s, txns)
  {
    var ins := InsertAll(s, txns);
    var listed := GetTransactions(ins.store);
    forall i | 0 <= i < |txns|
      ensures exists j :: 0 <= j < |listed| && listed[j].id !in s && listed[j].txn == txns[i]
    {
      InsertedEntry(s, txns, i);
      var k := ins.ids[i];
      Listed(ins.store, k);
      var j :| 0 <= j < |listed| && listed[j] == Row(k, ins.store[k]);
    }
  }

  /** After a successful import the listing shows every imported record,
      under a key the table did not have before. */
  lemma ImportThenList(s: Store, filename: string, rows: seq<CsvRow>, parse: string -> Option<real>)
    requires ImportCsv(s, filename, rows, parse).Success?
    ensures ParseRows(rows, parse).Some?
    ensures ShowsAll(GetTransactions(ImportCsv(s, filename, rows, parse).value.store), s,
                     ParseRows(rows, parse).value)
  {
    InsertedAreListed(s, ParseRows(rows, parse).value);
  }

  /** A file of three records whose middle one is bad imports nothing. */
  lemma BadMiddleRowRejectsAll(s: Store, a: CsvRow, b: CsvRow, c: CsvRow, parse: string -> Option<real>)
    requires Importable(a, parse) && !Importable(b, parse) && Importable(c, parse)
    ensures ImportCsv(s, "trades.csv", [a, b, c], parse) == Failure(InvalidCsvFormat)
  {
    assert EndsWith("trades.csv", CsvSuffix);
    var rows := [a, b, c];
    assert !Importable(rows[1], parse);
  }
}

=== FILE: form.dfy ===
/**
 The transaction form of the browser client (frontend/src/App.js): the draft
 reconciler `handleInputChange`, the edit-mode state keyed on
 `currentTransactionId` (`handleEdit`, `resetForm`), the request `handleSubmit`
 sends, and the total shown in the transactions table. Network calls and
 rendering are left out; a request is a value and `Serve` is the backend route
 it reaches.
 */
module Form {
  import opened Wrappers
  import opened Ledger

  /** The form's draft. `total` exists only in the form; it is `None` when the
      draft was loaded from a stored row, which has no total. */
  datatype Draft = Draft(date: string, pair: string, amount: real, price: real,
                         total: Option<real>, kind: string, fees: real)

  /** The draft `resetForm` restores: empty texts, zero numbers, type "buy". */
  const DefaultDraft: Draft := Draft("", "", 0.0, 0.0, Some(0.0), "buy", 0.0)

  /** The fields of the form. */
  datatype Field = DateField | PairField | AmountField | PriceField | TotalField | KindField | FeesField

  /** An input change event: the edited field and the value typed into it. */
  datatype Change =
    | SetDate(text: string)
    | SetPair(text: string)
    | SetAmount(number: real)
    | SetPrice(number: real)
    | SetTotal(number: real)
    | SetKind(text: string)
    | SetFees(number: real)

  function FieldOf(e: Change): Field
  {
    match e
    case SetDate(_) => DateField
    case SetPair(_) => PairField
    case SetAmount(_) => AmountField
    case SetPrice(_) => PriceField
    case SetTotal(_) => TotalField
    case SetKind(_) => KindField
    case SetFees(_) => FeesField
  }

  /** Whether drafts `a` and `b` hold the same value in field `f`. */
  predicate Agrees(a: Draft, b: Draft, f: Field)
  {
    match f
    case DateField => a.date == b.date
    case PairField => a.pair == b.pair
    case AmountField => a.amount == b.amount
    case PriceField => a.price == b.price
    case TotalField => a.total == b.total
    case KindField => a.kind == b.kind
    case FeesField => a.fees == b.fees
  }

  /** Whether draft `d` holds the value the change typed. */
  predicate Shows(d: Draft, e: Change)
  {
    match e
    case SetDate(v) => d.date == v
    case SetPair(v) => d.pair == v
    case SetAmount(v) => d.amount == v
    case SetPrice(v) => d.price == v
    case SetTotal(v) => d.total == Some(v)
    case SetKind(v) => d.kind == v
    case SetFees(v) => d.fees == v
  }

  /** `{ ...prev, [name]: value }`: the edited field takes the typed value
      and every other field keeps its own. */
  function Assign(d: Draft, e: Change): (r: Draft)
    ensures Shows(r, e)
    ensures forall f :: f != FieldOf(e) ==> Agrees(d, r, f)
  {
    match e
    case SetDate(v) => d.(date := v)
    case SetPair(v) => d.(pair := v)
    case SetAmount(v) => d.(amount := v)
    case SetPrice(v) => d.(price := v)
    case SetTotal(v) => d.(total := Some(v))
    case SetKind(v) => d.(kind := v)
    case SetFees(v) => d.(fees := v)
  }

  /** The field a change derives besides the one it edits, if any: a total
      edit derives the price and a price edit derives the total, both only
      while the amount is positive. The amount is never derived. */
  function Derived(d: Draft, e: Change): Option<Field>
  {
    if d.amount > 0.0 && e.SetTotal? then Some(PriceField)
    else if d.amount > 0.0 && e.SetPrice? then Some(TotalField)
    else None
  }

  /** `handleInputChange`: stores the typed value, then re-derives price from
      total or total from price while the amount is positive. */
  function HandleInputChange(prev: Draft, e: Change): (d: Draft)
    ensures Shows(d, e)
    ensures forall f :: f != FieldOf(e) && Derived(prev, e) != Some(f) ==> Agrees(prev, d, f)
    ensures prev.amount <= 0.0 ==> forall f :: f != FieldOf(e) ==> Agrees(prev, d, f)
    ensures !e.SetAmount? ==> d.amount == prev.amount
    ensures e.SetTotal? && prev.amount > 0.0 ==> d.price == e.number / prev.amount
                                                 && d.price * d.amount == e.number
    ensures e.SetPrice? && prev.amount > 0.0 ==> d.total.Some? && d.total.value == e.number * d.amount
  {
    var updated := Assign(prev, e);
    match e
    case SetTotal(v) =>
      if updated.amount > 0.0 then updated.(price := v / updated.amount) else updated
    case SetPrice(v) =>
      if updated.amount > 0.0 then updated.(total := Some(v * updated.amount)) else updated
    case _ => updated
  }

  /** Price and total agree in the draft. */
  predicate Consistent(d: Draft)
  {
    d.total.Some? && d.total.value == d.price * d.amount
  }

  /** Any change other than to the amount, made while the amount is
      positive, keeps a consistent draft consistent; a total or price edit
      makes any draft consistent. */
  lemma ReconcileEstablishesConsistency(d: Draft, e: Change)
    requires d.amount > 0.0
    requires e.SetTotal? || e.SetPrice? || (Consistent(d) && !e.SetAmount?)
    ensures Consistent(HandleInputChange(d, e))
  {
  }

  /** Editing the amount does not re-derive: a consistent draft with price 2
      and amount 1 becomes inconsistent when the amount is set to 3. */
  lemma AmountEditBreaksConsistency()
    ensures var d := Draft("", "BTC-USD", 1.0, 2.0, Some(2.0), "buy", 0.0);
            Consistent(d) && !Consistent(HandleInputChange(d, SetAmount(3.0)))
  {
  }

  /** Typing a price and then the total it produced gives the price back. */
  lemma PriceThenTotal(d: Draft, p: real)
    requires d.amount > 0.0
    ensures var d1 := HandleInputChange(d, SetPrice(p));
            HandleInputChange(d1, SetTotal(p * d.amount)) == d1
  {
    var d1 := HandleInputChange(d, SetPrice(p));
    var d2 := HandleInputChange(d1, SetTotal(p * d.amount));
    assert (p * d.amount) / d.amount == p;
    assert d1.total.value == p * d.amount;
    assert d1.total == Some(d1.total.value);
    assert d2 == d1;
  }

  /** Typing a total and then the price it produced gives the total back. */
  lemma TotalThenPrice(d: Draft, t: real)
    requires d.amount > 0.0
    ensures var d1 := HandleInputChange(d, SetTotal(t));
            HandleInputChange(d1, SetPrice(t / d.amount)) == d1
  {
    var d1 := HandleInputChange(d, SetTotal(t));
    var d2 := HandleInputChange(d1, SetPrice(t / d.amount));
    assert (t / d.amount) * d.amount == t;
    assert d2.total.value == t;
    assert d2.total == Some(d2.total.value);
    assert d2 == d1;
  }

  /** Repeating a change has no further effect. */
  lemma ChangeIdempotent(d: Draft, e: Change)
    ensures HandleInputChange(HandleInputChange(d, e), e) == HandleInputChange(d, e)
  {
    var d1 := HandleInputChange(d, e);
    var d2 := HandleInputChange(d1, e);
    if e.SetPrice? && d.amount > 0.0 {
      assert d2.total.value == d1.total.value;
      assert d2.total == Some(d2.total.value) && d1.total == Some(d1.total.value);
    }
    assert d2 == d1;
  }

  // Edit mode

  /** `currentTransactionId` and the draft. */
  datatype FormState = FormState(editing: Option<int>, draft: Draft)

  /** The JavaScript truthiness of `currentTransactionId`: `null` and `0`
      are false. */
  predicate InEditMode(st: FormState)
  {
    st.editing.Some? && st.editing.value != 0
  }

  /** `resetForm`: leaves edit mode and restores the default draft. */
  function ResetForm(): (st: FormState)
    ensures !InEditMode(st) && st.draft == DefaultDraft
  {
    FormState(None, DefaultDraft)
  }

  /** `transactions.find(t => t.id === id)`: the first listed row with key `id`. */
  function Find(listed: seq<Row>, id: int): (r: Option<Row>)
    ensures r.Some? <==> exists i :: 0 <= i < |listed| && listed[i].id == id
    ensures r.Some? ==> r.value.id == id && r.value in listed
    ensures r.Some? ==> exists i :: 0 <= i < |listed| && listed[i] == r.value
                                    && forall j :: 0 <= j < i ==> listed[j].id != id
  {
    if |listed| == 0 then None
    else if listed[0].id == id then Some(listed[0])
    else Find(listed[1..], id)
  }

  /** A stored row as a draft. The row has no total, so the draft's total
      is undefined. */
  function ToDraft(t: Txn): (d: Draft)
    ensures d.total.None?
    ensures t.amount > 0.0 ==> var d' := HandleInputChange(d, SetPrice(t.price));
                               d'.total.Some? && d'.total.value == DisplayedTotal(t)
    ensures t.amount <= 0.0 ==> HandleInputChange(d, SetPrice(t.price)) == d
  {
    Draft(t.date, t.pair, t.amount, t.price, None, t.kind, t.fees)
  }

  /** The columns the backend reads from the submitted JSON body: the
      draft's `total` and the body's `id` are dropped. */
  function Payload(d: Draft): (t: Txn)
    ensures ToDraft(t) == d.(total := None)
    ensures Consistent(d) ==> DisplayedTotal(t) == d.total.value
  {
    Txn(d.date, d.pair, d.amount, d.price, d.kind, d.fees)
  }

  /** Loading a row and submitting it unchanged sends the row's columns. */
  lemma PayloadToDraft(t: Txn)
    ensures Payload(ToDraft(t)) == t
  {
  }

  /** A draft is recovered from its payload up to its total. */
  lemma ToDraftPayload(d: Draft)
    ensures ToDraft(Payload(d)) == d.(total := None)
    ensures forall d' :: Payload(d') == Payload(d) <==> d'.(total := None) == d.(total := None)
  {
  }

  /** `handleEdit`: enters edit mode for `id` and loads the listed row with
      that key as the draft. `None` when no listed row has the key: the
      client would then set its draft to `undefined`. */
  function HandleEdit(listed: seq<Row>, id: int): (r: Option<FormState>)
    ensures r.Some? <==> exists i :: 0 <= i < |listed| && listed[i].id == id
    ensures r.Some? ==> r.value.editing == Some(id)
                        && exists i :: 0 <= i < |listed| && listed[i].id == id
                                       && r.value.draft == ToDraft(listed[i].txn)
  {
    match Find(listed, id)
    case None => None
    case Some(row) => Some(FormState(Some(id), ToDraft(row.txn)))
  }

  /** The request `handleSubmit` sends: PUT to `/api/transactions/{id}`
      or POST to `/api/transactions`. */
  datatype Request = Post(body: Txn) | Put(id: int, body: Txn)

  /** `handleSubmit`: PUT of the draft to the edited row in edit mode,
      otherwise POST of the draft as a new row. */
  function HandleSubmit(st: FormState): (r: Request)
    ensures r.Put? <==> InEditMode(st)
    ensures r.Put? ==> Some(r.id) == st.editing
    ensures r.body == Payload(st.draft)
  {
    if st.editing.Some? && st.editing.value != 0 then Put(st.editing.value, Payload(st.draft))
    else Post(Payload(st.draft))
  }

  /** The backend route a request reaches: `add_transaction` for a POST and
      `update_transaction` for a PUT. */
  function Serve(s: Store, req: Request): (r: Result<Store, StoreError>)
    ensures req.Post? ==> r.Success? && exists k :: k !in s && r.value == s[k := req.body]
    ensures req.Put? ==> (r.Success? <==> req.id in s)
    ensures req.Put? && r.Success? ==> r.value == s[req.id := req.body]
  {
    match req
    case Post(body) =>
      var a := AddTransaction(s, body);
      assert a.store == s[a.id := body];
      Success(a.store)
    case Put(id, body) => UpdateTransaction(s, id, body)
  }

  /** The client once a submit's request has been answered: whether the
      backend accepted it or answered not-found, the JSON answer leads to
      `resetForm`, so the form always leaves edit mode. */
  function AfterResponse(st: FormState, response: Result<Store, StoreError>): (r: FormState)
    ensures !InEditMode(r)
    ensures HandleSubmit(r).Post?
  {
    ResetForm()
  }

  /** After any JSON answer to a submit, the not-found of an update whose
      row was deleted meanwhile included, the form has left edit mode and is
      back to the default draft. */
  lemma SubmitLeavesEditMode(s: Store, st: FormState)
    ensures var r := AfterResponse(st, Serve(s, HandleSubmit(st)));
            !InEditMode(r) && r.draft == DefaultDraft
    ensures InEditMode(st) && st.editing.value !in s ==>
              Serve(s, HandleSubmit(st)) == Failure(NotFound)
              && !InEditMode(AfterResponse(st, Failure(NotFound)))
  {
  }

  /** After `resetForm` a submit creates a new row holding the default
      draft's columns and changes no existing row. */
  lemma ResetThenSubmitCreates(s: Store)
    ensures HandleSubmit(ResetForm()) == Post(Txn("", "", 0.0, 0.0, "buy", 0.0))
    ensures var r := Serve(s, HandleSubmit(ResetForm()));
            r.Success? && |r.value| == |s| + 1
            && forall k :: k in s ==> k in r.value && r.value[k] == s[k]
  {
    var body := Txn("", "", 0.0, 0.0, "buy", 0.0);
    assert ResetForm().draft == DefaultDraft;
    assert HandleSubmit(ResetForm()) == Post(body);
    var a := AddTransaction(s, body);
    assert Serve(s, Post(body)) == Success(a.store);
  }

  /** Choosing Edit on a row of a listing of the table loads that row's
      columns. */
  lemma EditLoadsStoredRow(s: Store, listed: seq<Row>, id: int)
    requires RowsStored(s, listed) && RowsCover(s, listed)
    requires id in s
    ensures HandleEdit(listed, id) == Some(FormState(Some(id), ToDraft(s[id])))
  {
    var row := Find(listed, id).value;
    var i :| 0 <= i < |listed| && listed[i] == row;
  }

  /** Editing a stored row and submitting without changes leaves the table
      as it was, provided keys are positive (as SQLite assigns them). */
  lemma EditUnchangedKeepsStore(s: Store, listed: seq<Row>, id: int)
    requires RowsStored(s, listed) && RowsCover(s, listed)
    requires PositiveIds(s) && id in s
    ensures var st := HandleEdit(listed, id);
            st.Some? && Serve(s, HandleSubmit(st.value)) == Success(s)
  {
    EditLoadsStoredRow(s, listed, id);
    var st := FormState(Some(id), ToDraft(s[id]));
    assert HandleSubmit(st) == Put(id, s[id]);
    assert s[id := s[id]] == s;
    assert UpdateTransaction(s, id, s[id]) == Success(s);
  }

  /** Submitting in edit mode replaces exactly the edited row's columns with
      the draft's; outside edit mode it adds one row with them. */
  lemma SubmitEffect(s: Store, st: FormState)
    ensures InEditMode(st) && st.editing.value in s ==>
            var r := Serve(s, HandleSubmit(st));
            r.Success? && r.value.Keys == s.Keys && r.value[st.editing.value] == Payload(st.draft)
            && forall k :: k in s && k != st.editing.value ==> r.value[k] == s[k]
    ensures InEditMode(st) && st.editing.value !in s ==> Serve(s, HandleSubmit(st)) == Failure(NotFound)
    ensures !InEditMode(st) ==>
            var r := Serve(s, HandleSubmit(st));
            r.Success? && |r.value| == |s| + 1
            && exists k :: k !in s && r.value == s[k := Payload(st.draft)]
  {
    if !InEditMode(st) {
      var a := AddTransaction(s, Payload(st.draft));
      assert a.store == s[a.id := Payload(st.draft)];
    }
  }

  // The transactions table

  /** The total shown for a listed row: `tx.amount * tx.price`. */
  function DisplayedTotal(t: Txn): (v: real)
    ensures t.amount > 0.0 ==>
              HandleInputChange(Draft(t.date, t.pair, t.amount, 0.0, None, t.kind, t.fees), SetTotal(v)).price
              == t.price
  {
    var v := t.amount * t.price;
    assert t.amount > 0.0 ==> v / t.amount == t.price;
    v
  }

  /** The shown total never depends on a total typed into the form: only the
      submitted amount and price reach the table. When the last edit was a
      total typed while the amount was positive, it is shown unchanged. */
  lemma DisplayedTotalIgnoresTypedTotal(d: Draft, total: Option<real>, v: real)
    ensures DisplayedTotal(Payload(d.(total := total))) == d.amount * d.price
    ensures d.amount > 0.0 ==> DisplayedTotal(Payload(HandleInputChange(d, SetTotal(v)))) == v
  {
    if d.amount > 0.0 {
      var d1 := HandleInputChange(d, SetTotal(v));
      assert d1.amount == d.amount && d1.price == v / d.amount;
      TimesQuotient(d.amount, v);
    }
  }

  lemma TimesQuotient(a: real, v: real)
    requires a > 0.0
    ensures a * (v / a) == v
  {
  }
}

=== FILE: ledger.dfy ===
/**
 The backend transaction store (backend/app/main.py). A stored transaction has
 the six data columns of the `transactions` table; the table's integer primary
 key is the key of the store map. Transport (FastAPI routes, status codes) is
 replaced by `Result` values.
 */
module Ledger {
  import opened Wrappers

  /** The six data columns of a stored transaction. `kind` is the `type`
      column; it is free text and only `buy`, `sell` and `transfer` mean
      anything to the balance query. A client-side `total` has no column. */
  datatype Txn = Txn(date: string, pair: string, amount: real, price: real, kind: string, fees: real)

  /** A listed transaction: its primary key and its columns. */
  datatype Row = Row(id: int, txn: Txn)

  /** The `transactions` table, keyed by primary key. */
  type Store = map<int, Txn>

  /** The 404 "Transaction not found" of update and delete. The handlers raise
      it when the driver's result for the statement is falsy; the model takes
      that to mean that no row had the key. */
  datatype StoreError = NotFound

  /** A non-empty set has an element. */
  lemma HasElement(ids: set<int>)
    requires ids != {}
    ensures exists x :: x in ids
  {
    if forall y :: y !in ids {
      assert false;
    }
  }

  predicate IsLargest(m: int, ids: set<int>)
  {
    m in ids && forall k :: k in ids ==> k <= m
  }

  predicate IsSmallest(m: int, ids: set<int>)
  {
    m in ids && forall k :: k in ids ==> m <= k
  }

  /** A non-empty finite set of ids has a largest element. */
  lemma {:induction false} LargestExists(ids: set<int>)
    requires ids != {}
    ensures exists m :: IsLargest(m, ids)
    decreases |ids|
  {
    HasElement(ids);
    var x :| x in ids;
    var rest := ids - {x};
    if rest == {} {
      assert IsLargest(x, ids) by {
        forall k | k in ids
          ensures k <= x
        {
          assert k !in rest;
        }
      }
    } else {
      LargestExists(rest);
      var m :| IsLargest(m, rest);
      var top := if x <= m then m else x;
      assert IsLargest(top, ids) by {
        forall k | k in ids
          ensures k <= top
        {
          if k != x {
            assert k in rest;
          }
        }
      }
    }
  }

  /** A non-empty finite set of ids has a smallest element. */
  lemma {:induction false} SmallestExists(ids: set<int>)
    requires ids != {}
    ensures exists m :: IsSmallest(m, ids)
    decreases |ids|
  {
    HasElement(ids);
    var x :| x in ids;
    var rest := ids - {x};
    if rest == {} {
      assert IsSmallest(x, ids) by {
        forall k | k in ids
          ensures x <= k
        {
          assert k !in rest;
        }
      }
    } else {
      SmallestExists(rest);
      var m :| IsSmallest(m, rest);
      var bottom := if m <= x then m else x;
      assert IsSmallest(bottom, ids) by {
        forall k | k in ids
          ensures bottom <= k
        {
          if k != x {
            assert k in rest;
          }
        }
      }
    }
  }

  /** The largest key, chosen without ambiguity. */
  function Largest(ids: set<int>): (m: int)
    requires ids != {}
    ensures m in ids && forall k :: k in ids ==> k <= m
  {
    LargestExists(ids);
    var m :| IsLargest(m, ids);
    m
  }

  /** The smallest key, chosen without ambiguity. */
  function Smallest(ids: set<int>): (m: int)
    requires ids != {}
    ensures m in ids && forall k :: k in ids ==> m <= k
  {
    SmallestExists(ids);
    var m :| IsSmallest(m, ids);
    m
  }

  /** The primary key SQLite gives a row inserted without one: one more than
      the largest key in the table, or 1 when the table is empty. Keys are
      not monotonic over time: deleting the largest row frees its key. */
  function NextId(s: Store): (id: int)
    ensures id !in s
    ensures forall k :: k in s ==> k < id
    ensures (forall k :: k in s ==> k >= 1) ==> id >= 1
  {
    if s == map[] then 1 else Largest(s.Keys) + 1
  }

  /** Every key is a positive integer, as SQLite's rowid rule produces. */
  ghost predicate PositiveIds(s: Store)
  {
    forall k :: k in s ==> k >= 1
  }

  datatype Added = Added(store: Store, id: int)

  /** `add_transaction`: inserts one row under a key not yet in the table and
      answers with that key. */
  function AddTransaction(s: Store, t: Txn): (r: Added)
    ensures r.id !in s
    ensures forall k :: k in s ==> k < r.id
    ensures r.store.Keys == s.Keys + {r.id}
    ensures r.store[r.id] == t
    ensures forall k :: k in s ==> r.store[k] == s[k]
    ensures |r.store| == |s| + 1
    ensures PositiveIds(s) ==> PositiveIds(r.store)
  {
    var id := NextId(s);
    Added(s[id := t], id)
  }

  /** `update_transaction`: replaces all six columns of the row with key `id`;
      reports not-found, changing nothing, when no row has that key (the
      model's reading of the driver result the handler tests). */
  function UpdateTransaction(s: Store, id: int, t: Txn): (r: Result<Store, StoreError>)
    ensures r.Failure? <==> id !in s
    ensures r.Success? ==> r.value.Keys == s.Keys && r.value[id] == t
    ensures r.Success? ==> forall k :: k in s && k != id ==> r.value[k] == s[k]
  {
    if id in s then Success(s[id := t]) else Failure(NotFound)
  }

  /** `delete_transaction`: removes the row with key `id`; reports not-found,
      changing nothing, when no row has that key (the model's reading of the
      driver result the handler tests). */
  function DeleteTransaction(s: Store, id: int): (r: Result<Store, StoreError>)
    ensures r.Failure? <==> id !in s
    ensures r.Success? ==> r.value.Keys == s.Keys - {id}
    ensures r.Success? ==> forall k :: k in r.value ==> r.value[k] == s[k]
    ensures r.Success? ==> |r.value| == |s| - 1
  {
    if id in s then Success(s - {id}) else Failure(NotFound)
  }

  /** `rows` lists `s` exactly once per key, in strictly ascending key order. */
  ghost predicate Lists(s: Store, rows: seq<Row>)
  {
    && |rows| == |s|
    && RowsStored(s, rows)
    && RowsCover(s, rows)
    && Ascending(rows)
  }

  ghost predicate RowsStored(s: Store, rows: seq<Row>)
  {
    forall i :: 0 <= i < |rows| ==> rows[i].id in s && rows[i].txn == s[rows[i].id]
  }

  ghost predicate RowsCover(s: Store, rows: seq<Row>)
  {
    forall k :: k in s ==> exists i :: 0 <= i < |rows| && rows[i].id == k
  }

  ghost predicate Ascending(rows: seq<Row>)
  {
    forall i, j :: 0 <= i < j < |rows| ==> rows[i].id < rows[j].id
  }

  ghost predicate UniqueIds(rows: seq<Row>)
  {
    forall i, j :: 0 <= i < j < |rows| ==> rows[i].id != rows[j].id
  }

  /** `rows` lists `s` exactly once per key, in any order: what a scan of the
      table returns when no order is asked for. */
  ghost predicate ListsUnordered(s: Store, rows: seq<Row>)
  {
    && |rows| == |s|
    && RowsStored(s, rows)
    && RowsCover(s, rows)
    && UniqueIds(rows)
  }

  /** The ascending listing is one of the listings in any order. */
  lemma OrderedIsUnordered(s: Store, rows: seq<Row>)
    requires Lists(s, rows)
    ensures ListsUnordered(s, rows)
  {
  }

  /** Taking the row at `j` out of a listing of `s` leaves a listing of `s`
      without that row's key. */
  lemma RemoveListedRow(s: Store, rows: seq<Row>, j: int)
    requires ListsUnordered(s, rows)
    requires 0 <= j < |rows|
    ensures ListsUnordered(s - {rows[j].id}, rows[..j] + rows[j + 1..])
  {
    var k := rows[j].id;
    var rest := s - {k};
    var rows' := rows[..j] + rows[j + 1..];
    RemoveKeySize(s, k);
    assert forall i :: 0 <= i < |rows'| ==> rows'[i] == rows[if i < j then i else i + 1];
    forall m | m in rest
      ensures exists i :: 0 <= i < |rows'| && rows'[i].id == m
    {
      var i :| 0 <= i < |rows| && rows[i].id == m;
      if i < j {
        assert rows'[i].id == m;
      } else {
        assert i != j;
        assert rows'[i - 1].id == m;
      }
    }
  }

  lemma RemoveKeySize(s: Store, k: int)
    requires k in s
    ensures |s - {k}| == |s| - 1
  {
    var rest := s - {k};
    assert rest.Keys == s.Keys - {k};
    assert |rest.Keys| == |s.Keys| - 1;
  }

  lemma StoredCons(s: Store, k: int, tail: seq<Row>)
    requires k in s
    requires RowsStored(s - {k}, tail)
    ensures RowsStored(s, [Row(k, s[k])] + tail)
  {
    var rows := [Row(k, s[k])] + tail;
    forall i | 0 <= i < |rows|
      ensures rows[i].id in s && rows[i].txn == s[rows[i].id]
    {
      if i > 0 {
        assert rows[i] == tail[i - 1];
      }
    }
  }

  lemma CoverCons(s: Store, k: int, tail: seq<Row>)
    requires k in s
    requires RowsCover(s - {k}, tail)
    ensures RowsCover(s, [Row(k, s[k])] + tail)
  {
    var rows := [Row(k, s[k])] + tail;
    forall j | j in s
      ensures exists i :: 0 <= i < |rows| && rows[i].id == j
    {
      if j == k {
        assert rows[0].id == j;
      } else {
        assert j in s - {k};
        var i :| 0 <= i < |tail| && tail[i].id == j;
        assert rows[i + 1].id == j;
      }
    }
  }

  lemma AscendingCons(s: Store, k: int, tail: seq<Row>)
    requires k in s && forall j :: j in s ==> k <= j
    requires RowsStored(s - {k}, tail)
    requires Ascending(tail)
    ensures Ascending([Row(k, s[k])] + tail)
  {
    var rows := [Row(k, s[k])] + tail;
    forall i, j | 0 <= i < j < |rows|
      ensures rows[i].id < rows[j].id
    {
      assert rows[j] == tail[j - 1];
      if i > 0 {
        assert rows[i] == tail[i - 1];
      } else {
        assert tail[j - 1].id in s - {k};
      }
    }
  }

  /** Listing the smallest key first, then a listing of the remaining rows,
      lists the whole table. */
  lemma ListsCons(s: Store, k: int, tail: seq<Row>)
    requires k in s && forall j :: j in s ==> k <= j
    requires Lists(s - {k}, tail)
    ensures Lists(s, [Row(k, s[k])] + tail)
  {
    RemoveKeySize(s, k);
    StoredCons(s, k, tail);
    CoverCons(s, k, tail);
    AscendingCons(s, k, tail);
  }

  /** `get_transactions`: every stored row exactly once, in ascending key
      order (the order of a plain scan of a SQLite rowid table). */
  function GetTransactions(s: Store): (rows: seq<Row>)
    ensures Lists(s, rows)
    decreases |s|
  {
    if s == map[] then []
    else
      var k := Smallest(s.Keys);
      var rest := s - {k};
      assert rest.Keys == s.Keys - {k};
      var tail := GetTransactions(rest);
      ListsCons(s, k, tail);
      [Row(k, s[k])] + tail
  }

  /** Every stored row shows up in the listing with its columns. */
  lemma Listed(s: Store, k: int)
    requires k in s
    ensures exists j :: 0 <= j < |GetTransactions(s)| && GetTransactions(s)[j] == Row(k, s[k])
  {
    var listed := GetTransactions(s);
    assert RowsCover(s, listed) && RowsStored(s, listed);
    var j :| 0 <= j < |listed| && listed[j].id == k;
    assert listed[j] == Row(k, s[k]);
  }

  /** Keys are reused: after the row with the largest key is deleted, the
      next insert receives that same key again. */
  lemma KeyReusedAfterDelete(t: Txn, u: Txn)
    ensures var a := AddTransaction(map[], t);
            var d := DeleteTransaction(a.store, a.id);
            d.Success? && AddTransaction(d.value, u).id == a.id
  {
    var a := AddTransaction(map[], t);
    assert a.id == 1;
    assert a.store.Keys == {1};
    var d := DeleteTransaction(a.store, a.id);
    assert d.value == map[];
  }
}

=== FILE: pairs.dfy ===
/**
 A trading pair is written `BASE-QUOTE`. The balance query recovers the two
 currencies with Python's `str.split("-")` followed by a two-name unpacking
 (backend/app/main.py:108): it succeeds exactly when the pair holds one
 separator, and either side may be empty.
 */
module Pairs {
  import opened Wrappers

  const Separator: char := '-'

  /** Number of occurrences of `c` in `s`. */
  function Count(s: string, c: char): nat
  {
    if |s| == 0 then 0 else (if s[0] == c then 1 else 0) + Count(s[1..], c)
  }

  /** Python's `s.split(sep)` for a one-character separator: the pieces between
      consecutive separators, empty pieces included, so there is always one
      more piece than there are separators. */
  function Split(s: string, sep: char): (parts: seq<string>)
    ensures |parts| == Count(s, sep) + 1
    ensures forall i :: 0 <= i < |parts| ==> sep !in parts[i]
    decreases |s|
  {
    if |s| == 0 then [""]
    else
      var rest := Split(s[1..], sep);
      if s[0] == sep then [""] + rest
      else [[s[0]] + rest[0]] + rest[1..]
  }

  /** `sep.join(parts)`: the inverse of `Split`. */
  function Join(parts: seq<string>, sep: char): string
    requires |parts| > 0
  {
    if |parts| == 1 then parts[0] else parts[0] + [sep] + Join(parts[1..], sep)
  }

  lemma JoinConsHead(c: char, p: string, ps: seq<string>, sep: char)
    ensures Join([[c] + p] + ps, sep) == [c] + Join([p] + ps, sep)
  {
    var xs := [[c] + p] + ps;
    var ys := [p] + ps;
    assert xs[1..] == ys[1..] == ps;
  }

  /** Splitting and joining back gives the original string. */
  lemma {:induction false} JoinSplit(s: string, sep: char)
    ensures Join(Split(s, sep), sep) == s
    decreases |s|
  {
    if |s| == 0 {
    } else {
      var rest := Split(s[1..], sep);
      JoinSplit(s[1..], sep);
      if s[0] == sep {
        var parts := [""] + rest;
        assert parts[1..] == rest;
        assert s == [sep] + s[1..];
      } else {
        JoinConsHead(s[0], rest[0], rest[1..], sep);
        assert [rest[0]] + rest[1..] == rest;
        assert s == [s[0]] + s[1..];
      }
    }
  }

  /** Splitting a separator-free word followed by any text: the word is glued
      to the front of the first piece of the text. */
  lemma {:induction false} SplitPrefix(w: string, t: string, sep: char)
    requires sep !in w
    ensures Split(w + t, sep) == [w + Split(t, sep)[0]] + Split(t, sep)[1..]
    decreases |w|
  {
    if |w| == 0 {
      assert w + t == t;
      var r := Split(t, sep);
      assert w + r[0] == r[0];
      assert [r[0]] + r[1..] == r;
    } else {
      SplitPrefix(w[1..], t, sep);
      var s := w + t;
      assert s[0] == w[0] && s[1..] == w[1..] + t;
      assert [w[0]] + (w[1..] + Split(t, sep)[0]) == w + Split(t, sep)[0];
    }
  }

  /** Joining separator-free pieces and splitting again gives the pieces back. */
  lemma {:induction false} SplitJoin(parts: seq<string>, sep: char)
    requires |parts| > 0
    requires forall i :: 0 <= i < |parts| ==> sep !in parts[i]
    ensures Split(Join(parts, sep), sep) == parts
    decreases |parts|
  {
    if |parts| == 1 {
      SplitPrefix(parts[0], "", sep);
      assert parts[0] + "" == parts[0];
    } else {
      var tail := Join(parts[1..], sep);
      SplitJoin(parts[1..], sep);
      SplitPrefix(parts[0], [sep] + tail, sep);
      assert parts[0] + [sep] + tail == parts[0] + ([sep] + tail);
      var u := [sep] + tail;
      assert u[0] == sep && u[1..] == tail;
      assert Split(u, sep) == [""] + parts[1..];
      assert parts[0] + "" == parts[0];
      assert [parts[0]] + parts[1..] == parts;
    }
  }

  /** The unpacking `base, quote = pair.split("-")`: defined exactly when the
      split yields two pieces. */
  function PairOf(pair: string): (r: Option<(string, string)>)
    ensures r.Some? <==> Count(pair, Separator) == 1
  {
    var parts := Split(pair, Separator);
    if |parts| == 2 then Some((parts[0], parts[1])) else None
  }

  /** The pair unpacks to `(base, quote)` exactly when neither side holds the
      separator and the pair is `base`, the separator, then `quote`. */
  lemma {:induction false} PairOfExact(pair: string, base: string, quote: string)
    ensures PairOf(pair) == Some((base, quote))
            <==> Separator !in base && Separator !in quote && pair == base + [Separator] + quote
  {
    var parts := [base, quote];
    assert parts[1..] == [quote];
    if PairOf(pair) == Some((base, quote)) {
      JoinSplit(pair, Separator);
      assert Split(pair, Separator) == parts;
    }
    if Separator !in base && Separator !in quote && pair == base + [Separator] + quote {
      SplitJoin(parts, Separator);
    }
  }

  /** `"BTC-USD"` names Bitcoin priced in US dollars. */
  lemma PairOfBtcUsd()
    ensures PairOf("BTC-USD") == Some(("BTC", "USD"))
  {
    PairOfExact("BTC-USD", "BTC", "USD");
  }

  /** An empty side is accepted: `"BTC-"` has quote currency `""`, and a
      lone separator unpacks to two empty names. */
  lemma PairOfEmptyQuote()
    ensures PairOf("BTC-") == Some(("BTC", ""))
    ensures PairOf("-") == Some(("", ""))
  {
    PairOfExact("BTC-", "BTC", "");
    PairOfExact("-", "", "");
  }

  /** A pair with no separator or with two separators does not unpack. */
  lemma PairOfMalformed()
    ensures PairOf("BTCUSD") == None
    ensures PairOf("A-B-C") == None
  {
  }
}

=== FILE: wrappers.dfy ===
/** `Option` (usable with `:-`) and `Result`, shared by the ledger modules. */
module Wrappers {

  /** A value that may be absent: a dictionary lookup that misses, a parse
      that fails. Usable with `:-`. */
  datatype Option<+T> = None | Some(value: T) {

    predicate IsFailure() {
      None?
    }

    function PropagateFailure<U>(): Option<U>
      requires None?
    {
      None
    }

    function Extract(): T
      requires Some?
    {
      value
    }
  }

  /** The outcome of an operation that can fail with an error the caller sees. */
  datatype Result<+R, +E> = Success(value: R) | Failure(error: E)
}
